=== FILE: README.md ===
# Navigation nodes: parent-change detection, save and active-page matching

This project models the navigation node of a CMS navigation plugin
(`src/elements/Node.php`). Editors build menus as trees of nodes. A node links to
a content element or to a manual URL, and its place in the tree lives in the
host's "structure" for the node's navigation. The model covers three parts:

- **Parent-change detection** (`_checkForNewParent`). An ordered decision on the
  node's id, the submitted `newParentId`, the node's level and its current parent.
  It follows PHP 7 semantics: truthiness, a strict `=== null` test, and loose `==`/`!=`.
  The decision is memoised per node (`_hasNewParent`).
- **Saving a node** (`beforeSave`, `afterSave`). `beforeSave` resolves the requested
  parent within the node's site and sets it, or throws. `afterSave` writes the node
  record and takes its id. It then looks up the navigation and, only when a new
  parent was detected, appends the node at the top level or under the parent.
  The host store is a class with four fields:
  - the node table;
  - the (node id, site id) pairs a node lookup finds;
  - the navigations (navigation id to structure id);
  - each structure's map from node to position.
- **Active-page matching** (`getActive`). A recursive predicate over a node tree.
  It uses PHP's `str_replace`, `ltrim` and `substr`, `getUrl` and `isManual`.

Modules:

| file | module | what it holds |
|---|---|---|
| `wrappers.dfy` | `Wrappers` | `Option` (PHP null) and `Result` (a value or what was thrown) |
| `php.dfy` | `Php` | PHP values, truthiness, loose comparison, integer text, `str_replace`, `ltrim`, `substr` |
| `node_model.dfy` | `NodeModel` | linked element, record, position, errors; `getUrl`, `isManual`, `getNav`, the record `afterSave` writes |
| `new_parent.dfy` | `NewParent` | `_checkForNewParent` and what it decides |
| `active_page.dfy` | `ActivePage` | `getActive` over a node tree |
| `node_save.dfy` | `NodeSave` | the `Store` and `Node` classes: memo, `beforeSave`, `afterSave`, the host's save sequence |

Inputs that come from the host rather than from this code:
- `oldParentId`: the scalar the "ancestor at distance 1" query returns. It is
  `false` when there is no row, otherwise the parent id as digit text (MySQL
  driver) or as an integer.
- `level`: the node's level, as the host loaded it.
- `element`: the linked element (only its URL), which the host resolved from `elementId`.
- the site URL and the request path (the request's segments joined by `/`).
- the id the host gives a new element between the two hooks.

Where the code behaves differently from what a reader may expect:
- The stored URL is nulled when the node has a truthy link `type`, not when it has an element id (Node.php:236-238).
- The requested parent is resolved only after a new parent has been detected (Node.php:197-209). An unresolvable `newParentId` does not throw when no move is detected.
- The plugin code has no cycle check (Node.php:197-209). Only the host's append refuses a parent that is the node itself or one of its descendants, and the save then throws after the record is written.
- The requested parent is looked up by id and site only (Node.php:199), not within the node's navigation. A parent from another navigation of the same site passes `beforeSave`; the append into this navigation's structure (Node.php:253) then has no such parent, and the save throws after the record is written.
- The comment at Node.php:135-136 gives the prefix rule for nested pages, and the `$isHomepage` guard (Node.php:117, 138) keeps the homepage link out of it. The guard compares absolute URLs, though. A manual node whose URL is `/`, or a node whose URL is null, has an empty relative URL and is not caught by the guard. A node with a null URL is therefore active on every page, and so is the manual `/` link unless the site URL is itself `/`. See Findings.

## Model

| member | source | states |
|---|---|---|
| `Php.Truthy` | src/elements/Node.php:285-290 | PHP's truthiness (`if ($x)`, `!$x`): exactly null, false, 0, "" and "0" are falsy |
| `Php.LooseEq` | src/elements/Node.php:285-304 | PHP 7's loose `==`: every value equals itself, and comparing with `false` (the query's "no row") asks exactly whether a value is falsy |
| `Php.LooseEqIds` | src/elements/Node.php:304 | two ids, each an integer or its decimal text, are loosely equal iff they are the same number |
| `Php.LooseEqSymmetric` | src/elements/Node.php:304 | loose comparison does not depend on the order of its operands |
| `Php.LooseEqNotTransitive` | src/elements/Node.php:304 | loose comparison is not transitive: null == 0 and 0 == "a" but null != "a" |
| `Php.DecimalRoundTrip` | src/elements/Node.php:302-304 | an id's decimal text, as the query returns it, is a numeric string that reads back as the id |
| `Php.RemoveAll` | src/elements/Node.php:115 | `str_replace` with an empty replacement never lengthens the URL; it removes at least one occurrence when there is one; an empty site URL leaves the URL alone |
| `Php.RemoveAllFirstOccurrence` | src/elements/Node.php:115 | up to the first occurrence of the site URL the text is kept as it is; that occurrence is dropped and removal goes on right after it |
| `Php.RemoveAllAbsent` | src/elements/Node.php:115 | a URL in which the site URL never occurs is unchanged |
| `Php.RemoveAllBase` | src/elements/Node.php:115 | removing the site URL from site URL + path gives the path when the site URL does not recur in it |
| `Php.RemoveAllInterior` | src/elements/Node.php:115 | occurrences after the start are removed too, not only a prefix |
| `Php.LTrimSlash` | src/elements/Node.php:120-122 | `ltrim(s, '/')` is a suffix of s with no leading '/', and everything dropped is '/' |
| `Php.Substr0` | src/elements/Node.php:137 | `substr(s, 0, n)` is the prefix of s of length min(n, strlen(s)) |
| `Php.SubstrPrefix` | src/elements/Node.php:137 | `substr(current, 0, strlen(rel)) === rel` holds iff rel is a prefix of current |
| `NodeModel.IsManual` | src/elements/Node.php:187-190 | a node is manual iff its type is null, "" or "0" |
| `NodeModel.GetUrl` | src/elements/Node.php:146-157 | the own URL when truthy; else the linked element's URL when there is an element; else the own falsy URL |
| `NodeModel.GetUrlTruthy` | src/elements/Node.php:146-157 | the resolved URL is truthy iff the own URL is, or the element's URL is |
| `NodeModel.GetNav` | src/elements/Node.php:172-185 | a null navigation id throws "missing"; an unknown one throws "invalid"; otherwise the navigation's structure id |
| `NodeModel.SubmittedNodeId` | src/elements/Node.php:199 | an integer submitted parent id looks up that id; null and booleans look up nothing |
| `NodeModel.SubmittedIdValue` | src/elements/Node.php:199 | a parent id submitted as an integer or as its decimal text finds that id |
| `NodeModel.StoredUrl` | src/elements/Node.php:235-238 | the URL written to the record: null for a node with a truthy type; otherwise the own URL when truthy, else the element's URL when there is an element, else the own falsy URL |
| `NodeModel.RecordOf` | src/elements/Node.php:228-238 | the record copies id, elementId, navId, type, classes and newWindow verbatim; url is null when type is truthy, `getUrl()` otherwise |
| `NodeModel.ReloadedElementUrlIsLive` | src/elements/Node.php:235-238 | a saved node with a type, reloaded, shows its element's current URL and never a stored one |
| `NodeModel.ReloadedManualUrlKept` | src/elements/Node.php:228-238 | a manual node's truthy URL is stored and shown again after reload |
| `NewParent.CheckForNewParent` | src/elements/Node.php:272-305 | a move is only reported for a node without an id or with a submitted parent; a submitted parent that differs loosely from the current one is always a move |
| `NewParent.NoIdHasNewParent` | src/elements/Node.php:274-277 | a node without an id always has a new parent |
| `NewParent.NullNeverNewParent` | src/elements/Node.php:279-282 | a node with an id and `newParentId === null` never has one, whatever its level or current parent |
| `NewParent.LevelDecidesMove` | src/elements/Node.php:284-292 | a falsy id off level 1, or a truthy id at level 1, is a new parent for every result of the parent query |
| `NewParent.OtherwiseParentCompared` | src/elements/Node.php:294-304 | in all remaining cases the answer is exactly `newParentId != oldParentId`, loosely |
| `NewParent.DetectsExactlyAMove` | src/elements/Node.php:272-305 | when level and parent query describe the node's place and the submission asks for a place, a new parent is detected iff the two places differ |
| `ActivePage.Text` | src/elements/Node.php:115 | a null URL handed to `str_replace` reads as "" |
| `ActivePage.RelativeUrl` | src/elements/Node.php:115-122 | a manual node's relative URL never starts with '/' |
| `ActivePage.IsHomepage` | src/elements/Node.php:117 | the homepage link's relative URL is empty (for a non-empty site URL) |
| `ActivePage.SelfActive` | src/elements/Node.php:115-141 | the node's own test: the path equals its relative URL, or starts with it and the node is not the homepage link |
| `ActivePage.Active` | src/elements/Node.php:112-144 | a node passing its own test is active; a node without children is active only then |
| `ActivePage.AnyActive` | src/elements/Node.php:127-133 | no children means no active child; an active first child makes the fold true |
| `ActivePage.AnyActiveIff` | src/elements/Node.php:127-133 | the fold over the children is true iff some child is active |
| `ActivePage.ActiveIff` | src/elements/Node.php:112-144 | active iff the path equals the relative URL, or starts with it and the node is not the homepage link, or a child is active |
| `ActivePage.ActiveChildActivatesParent` | src/elements/Node.php:127-143 | an active child makes its parent active |
| `ActivePage.ActiveIffSubtreeMatches` | src/elements/Node.php:112-144 | a node is active iff it or one of its descendants matches the path by its own URL |
| `ActivePage.AnyActiveIffSubtreesMatch` | src/elements/Node.php:127-133 | some child is active iff some node below it matches by its own URL |
| `ActivePage.ManualPathActive` | src/elements/Node.php:115-141 | a manual node "/p" is active on path p and on every path that begins with p, e.g. "about-us" for "/about" |
| `ActivePage.ManualSlashAlwaysActive` | src/elements/Node.php:117-141 | as written, a manual node "/" is active on every path unless the site URL is "/" |
| `ActivePage.EmptyRelativeUrlAlwaysActive` | src/elements/Node.php:115-141 | as written, every node with an empty relative URL that is not the homepage link is active on every path |
| `ActivePage.NullUrlAlwaysActive` | src/elements/Node.php:115-141 | as written, a node with no URL and no element (URL null, relative URL "") is active on every path |
| `ActivePage.CorrectedHomepageOnlyOnHomepage` | src/elements/Node.php:135-141 | with the corrected homepage test, a node with an empty relative URL is active by itself only on the empty path |
| `ActivePage.CorrectedAgrees` | src/elements/Node.php:135-141 | the corrected test agrees with the original for every other node, including the homepage link |
| `NodeSave.Memoised` | src/elements/Node.php:265-269 | a memo returns the remembered answer when there is one, the computed answer otherwise |
| `NodeSave.ResolveParent` | src/elements/Node.php:198-206 | a falsy `newParentId` resolves to the top level; a truthy one to the node it finds in the node's site; otherwise it throws "invalid node" |
| `NodeSave.RecordTarget` | src/elements/Node.php:217-226 | an existing node writes its own record, which must exist; a new node writes a new record with its id, which must be free |
| `NodeSave.Placed` | src/elements/Node.php:250-254 | an append places the node at the given position in its navigation's structure and changes no other placement |
| `NodeSave.Node.HasNewParent` | src/elements/Node.php:263-270 | the first call computes the decision and remembers it; later calls return the remembered answer |
| `NodeSave.Node.BeforeSave` | src/elements/Node.php:195-212 | with a new parent: sets the resolved parent, or the top level, or throws before any change; without one: leaves the parent alone |
| `NodeSave.Node.AfterSave` | src/elements/Node.php:214-258 | writes the record (or throws before writing); takes the record id; a bad navigation throws after the record write; only with a new parent does it append to the top level or under the set parent, and an append the host refuses (a parent outside the navigation's structure, or the node itself or a descendant) throws with no structure changed |
| `NodeSave.Node.Save` | src/elements/Node.php:195-258 | both hooks act on one answer, computed before a new node has its id; parent errors leave both stores untouched; on success the record is written and the node placed exactly when a move was detected, under the submitted parent id or at the top level; a record error with no parent error throws before any write; a navigation error, a parent outside the navigation's structure, or a parent that is the node itself or a descendant, throws with the record written and the structures unchanged; a successful move under a parent puts it under a node of the structure outside its own subtree |
| `NodeSave.RecomputingAfterInsertWouldMiss` | src/elements/Node.php:263-282 | without the memo, a new node submitted without a parent would no longer count as moved once it has an id |
| `NodeSave.AppendRefusal` | src/elements/Node.php:253 | the host's append under a parent is refused exactly when the parent is outside the navigation's structure or is the node itself or one of its descendants; an accepted parent is never the node |
| `NodeSave.WithinAwayFrom` | src/elements/Node.php:253 | a chain of parent links that never reaches the node is the same before and after the node is re-placed |
| `NodeSave.AcceptedAppendLeavesNoCycle` | src/elements/Node.php:249-254 | after an accepted append under a parent, the node's new parent does not lead back to the node |
| `NodeSave.SelfParentRejected` | src/elements/Node.php:197-254 | a node asking to be its own parent has its record written, the append is refused, and the structure is unchanged |
| `NodeSave.ChildParentRejected` | src/elements/Node.php:197-254 | a node asking to move under its own child has its record written, the append is refused, and the structure is unchanged |
| `NodeSave.ParentFromOtherNavigationRejected` | src/elements/Node.php:197-254 | a parent found in the same site but in another navigation passes `beforeSave`; the save throws after the record write and leaves both structures as they were |
| `NodeSave.NewNodeLandsAtTopLevel` | src/elements/Node.php:249-251 | any brand-new node saved without a submitted parent, into an existing navigation and under a free id, is written and ends up at the top level of its navigation's structure |
| `NodeSave.Node.constructor` | src/elements/Node.php:75-88 | a node starts with the given fields, no parent set and no memo |

## Left out

- src/resources/src/js/navigation.js: jQuery and DOM work, modals, AJAX calls and timers in the admin page; it decides nothing about nodes.
- src/base/PluginTrait.php: it only registers service components.
- Static metadata (Node.php:32-70), `init`, `getLink` (HTML rendering), `setUrl` (a plain setter) and translation strings: no behaviour to state.
- `getElement` (Node.php:100-110): the element lookup belongs to the host. The resolved element is the `element` field.
- `NodeSave.Node.AfterSave`: the re-fetch of the element after the record write (Node.php:244) is not modelled. That fetch can throw when the element is missing; the model keeps the element resolved before the save.
- `parent::beforeSave`, `parent::afterSave`, the element row insert and the `enabled` flag are host behaviour. The host's part is only the id it hands a new node.
- `Php.LooseEq`: numeric strings with a decimal point or an exponent are not modelled as floats. Against an int the model reads the string's leading integer, so it has `1 == "1.5"` true and `1000 == "1e3"` false; PHP 7 converts such strings to float and gives the opposite answers. Two such strings compare as text. PHP 8's changed string-to-number comparison is not modelled either; the code targets PHP 7.
- `NodeModel.SubmittedNodeId`: the query builder's conversion of a submitted value into an id covers integers and integer text only; other strings find no node.
- `NodeSave.Node.AfterSave`: the host's `append` is taken to throw, changing no structure, when the parent is not in the navigation's structure or is the node itself or one of its descendants; which exception it throws is not modelled.
- `NodeSave.InSubtree`: the descendant test follows at most as many parent links as the structure has placed nodes, which is every chain in a structure without cycles.
- `NodeSave.Node.AfterSave`: `getParent()` is taken to return the parent set by `beforeSave`. Its lazy structure lookup is not modelled: when no parent was set, the model throws `MissingParent`.
- `NodeSave.Node.Save`: the host runs `afterSave` inside a database transaction and rolls it back when a hook throws. That rollback is not modelled, so the record write that survives a navigation error holds only for the hook's own steps. The same holds for the record write that survives an append under a parent outside the structure.
- `NodeSave.Node.BeforeSave`: the level change that `setParent` makes in the host is not modelled.
- `NodeSave.Placed`: a structure keeps each node's parent, not the order of siblings. "Append as last child" is modelled as "place under".
- `record->save(false)` failures other than a taken id are not modelled.
- Moving nodes by drag and drop and deleting subtrees: their server code is not part of this model.
- Concurrent editors and the host store's locking: the model runs one save at a time.

## Findings

| source | as written | input that shows it | evidently intended | confidence | as-written member | corrected member |
|---|---|---|---|---|---|---|
| src/elements/Node.php:117-141 | `$isHomepage` compares `getUrl()` with the absolute site URL. A manual link to `/` has relative URL "" after `ltrim`. "" prefixes every path, and "/" is not the site URL, so the prefix rule is never suppressed. | site URL `https://example.com/`, manual node URL `/`, request path `about`: the node is active. A node whose URL is null (no own URL, no element) behaves the same way | a link whose relative URL is empty is the homepage link and gets no prefix match | medium; not executed | `ActivePage.ManualSlashAlwaysActive`, `ActivePage.NullUrlAlwaysActive` | `ActivePage.CorrectedHomepageOnlyOnHomepage` (about `ActivePage.SelfActiveCorrected`) |

=== FILE: active_page.dfy ===
/**
 * Active-page matching (`getActive`): a node is active on a request when its
 * relative URL is the request path, when its relative URL is a prefix of
 * the request path and the node is not the homepage link, or when one of its
 * children is active.
 *
 * The site URL and the request path (the request's segments joined by '/')
 * are inputs.
 */
module ActivePage {
  import opened Wrappers
  import opened Php
  import opened NodeModel

  /** A node as `getActive` sees it: its URL fields, its link type and its children in the structure. */
  datatype NavNode = NavNode(url: Option<string>, element: Option<Linked>, linkType: Option<string>, children: seq<NavNode>)

  /** A nullable string handed to a PHP string function: null reads as "". */
  function Text(o: Option<string>): (r: string)
    ensures o.Some? ==> r == o.value
    ensures o.None? ==> r == ""
  {
    if o.Some? then o.value else ""
  }

  /**
   * The node's URL with every occurrence of the site URL removed, and, for a
   * manual node, with its leading '/' characters stripped.
   */
  function RelativeUrl(siteUrl: string, n: NavNode): (r: string)
    ensures IsManual(n.linkType) ==> r == [] || r[0] != '/'
  {
    var rel := RemoveAll(Text(GetUrl(n.url, n.element)), siteUrl);
    if IsManual(n.linkType) then LTrimSlash(rel) else rel
  }

  /** The homepage link: a node whose URL is exactly the site URL; its relative URL is empty. */
  predicate IsHomepage(siteUrl: string, n: NavNode)
    ensures IsHomepage(siteUrl, n) && siteUrl != [] ==> RelativeUrl(siteUrl, n) == ""
  {
    GetUrl(n.url, n.element) == Some(siteUrl)
  }

  /** The node's own test: exact match, or prefix match unless it is the homepage link. */
  predicate SelfActive(siteUrl: string, current: string, n: NavNode)
    ensures SelfActive(siteUrl, current, n) <==>
      current == RelativeUrl(siteUrl, n) || (RelativeUrl(siteUrl, n) <= current && !IsHomepage(siteUrl, n))
  {
    var rel := RelativeUrl(siteUrl, n);
    current == rel || (Substr0(current, |rel|) == rel && !IsHomepage(siteUrl, n))
  }

  /** `getActive`: a node passing its own test is active, and a leaf is active only then. */
  predicate Active(siteUrl: string, current: string, n: NavNode)
    ensures SelfActive(siteUrl, current, n) ==> Active(siteUrl, current, n)
    ensures n.children == [] ==> (Active(siteUrl, current, n) <==> SelfActive(siteUrl, current, n))
    decreases n, 1
  {
    SelfActive(siteUrl, current, n) || AnyActive(siteUrl, current, n.children)
  }

  /** The fold over the children: false for no children, true once the first child is active. */
  predicate AnyActive(siteUrl: string, current: string, cs: seq<NavNode>)
    ensures AnyActive(siteUrl, current, cs) ==> cs != []
    ensures cs != [] && Active(siteUrl, current, cs[0]) ==> AnyActive(siteUrl, current, cs)
    decreases cs, 0
  {
    |cs| > 0 && (Active(siteUrl, current, cs[0]) || AnyActive(siteUrl, current, cs[1..]))
  }

  lemma {:induction false} AnyActiveIff(siteUrl: string, current: string, cs: seq<NavNode>)
    ensures AnyActive(siteUrl, current, cs) <==> exists i :: 0 <= i < |cs| && Active(siteUrl, current, cs[i])
  {
    if |cs| > 0 {
      AnyActiveIff(siteUrl, current, cs[1..]);
      if AnyActive(siteUrl, current, cs[1..]) {
        var j :| 0 <= j < |cs[1..]| && Active(siteUrl, current, cs[1..][j]);
        assert Active(siteUrl, current, cs[j + 1]);
      }
      if exists i :: 0 <= i < |cs| && Active(siteUrl, current, cs[i]) {
        var i :| 0 <= i < |cs| && Active(siteUrl, current, cs[i]);
        if i > 0 {
          assert Active(siteUrl, current, cs[1..][i - 1]);
        }
      }
    }
  }

  /**
   * A node is active exactly when the request path equals its relative URL,
   * or starts with it and the node is not the homepage link, or some child
   * is active.
   */
  lemma ActiveIff(siteUrl: string, current: string, n: NavNode)
    ensures Active(siteUrl, current, n) <==>
      current == RelativeUrl(siteUrl, n)
      || (RelativeUrl(siteUrl, n) <= current && !IsHomepage(siteUrl, n))
      || exists i :: 0 <= i < |n.children| && Active(siteUrl, current, n.children[i])
  {
    SubstrPrefix(current, RelativeUrl(siteUrl, n));
    AnyActiveIff(siteUrl, current, n.children);
  }

  /** An active child makes its parent active. */
  lemma ActiveChildActivatesParent(siteUrl: string, current: string, n: NavNode, i: int)
    requires 0 <= i < |n.children| && Active(siteUrl, current, n.children[i])
    ensures Active(siteUrl, current, n)
  {
    AnyActiveIff(siteUrl, current, n.children);
  }

  /** The node followed by all its descendants. */
  function Subtree(n: NavNode): (r: seq<NavNode>)
    ensures |r| > 0 && r[0] == n
    decreases n, 1
  {
    [n] + Subtrees(n.children)
  }

  function Subtrees(cs: seq<NavNode>): seq<NavNode>
    decreases cs, 0
  {
    if cs == [] then [] else Subtree(cs[0]) + Subtrees(cs[1..])
  }

  /** A node is active exactly when it or one of its descendants matches the request on its own. */
  lemma {:induction false} ActiveIffSubtreeMatches(siteUrl: string, current: string, n: NavNode)
    ensures Active(siteUrl, current, n) <==> exists m :: m in Subtree(n) && SelfActive(siteUrl, current, m)
    decreases n, 1
  {
    AnyActiveIffSubtreesMatch(siteUrl, current, n.children);
    assert Subtree(n) == [n] + Subtrees(n.children);
    if exists m :: m in Subtree(n) && SelfActive(siteUrl, current, m) {
      var m :| m in Subtree(n) && SelfActive(siteUrl, current, m);
      if m != n {
        assert m in Subtrees(n.children);
      }
    }
  }

  lemma {:induction false} AnyActiveIffSubtreesMatch(siteUrl: string, current: string, cs: seq<NavNode>)
    ensures AnyActive(siteUrl, current, cs) <==> exists m :: m in Subtrees(cs) && SelfActive(siteUrl, current, m)
    decreases cs, 0
  {
    if cs != [] {
      ActiveIffSubtreeMatches(siteUrl, current, cs[0]);
      AnyActiveIffSubtreesMatch(siteUrl, current, cs[1..]);
      assert Subtrees(cs) == Subtree(cs[0]) + Subtrees(cs[1..]);
      if exists m :: m in Subtrees(cs) && SelfActive(siteUrl, current, m) {
        var m :| m in Subtrees(cs) && SelfActive(siteUrl, current, m);
        if m !in Subtree(cs[0]) {
          assert m in Subtrees(cs[1..]);
        }
      }
    }
  }

  /**
   * A manual node whose URL is '/' followed by a path is active on that path
   * and on every request path that begins with it, such as "about-us" for
   * "/about": the prefix test does not stop at a '/' boundary.
   */
  lemma ManualPathActive(siteUrl: string, path: string, rest: string, element: Option<Linked>, children: seq<NavNode>)
    requires siteUrl != [] && !Occurs(siteUrl, "/" + path)
    requires path == [] || path[0] != '/'
    requires "/" + path != siteUrl
    ensures var n := NavNode(Some("/" + path), element, None, children);
      Active(siteUrl, path, n) && Active(siteUrl, path + rest, n)
  {
    var n := NavNode(Some("/" + path), element, None, children);
    assert GetUrl(n.url, n.element) == Some("/" + path);
    RemoveAllAbsent("/" + path, siteUrl);
    assert LTrimSlash("/" + path) == path by {
      assert ("/" + path)[1..] == path;
    }
    assert RelativeUrl(siteUrl, n) == path;
    SubstrPrefix(path + rest, path);
  }

  // ---------------------------------------------------------------------
  // The homepage test compares absolute URLs

  /**
   * As written, every node whose relative URL is empty and which is not the
   * homepage link is active on every request path: "" prefixes every path.
   */
  lemma EmptyRelativeUrlAlwaysActive(siteUrl: string, current: string, n: NavNode)
    requires RelativeUrl(siteUrl, n) == "" && !IsHomepage(siteUrl, n)
    ensures SelfActive(siteUrl, current, n)
  {
    assert RelativeUrl(siteUrl, n) <= current;
  }

  /**
   * A node with no URL of its own and no linked element has a null URL,
   * whose relative URL is empty: as written it is active on every request path.
   */
  lemma NullUrlAlwaysActive(siteUrl: string, current: string, linkType: Option<string>, children: seq<NavNode>)
    ensures SelfActive(siteUrl, current, NavNode(None, None, linkType, children))
  {
    var n := NavNode(None, None, linkType, children);
    assert GetUrl(n.url, n.element) == None;
    assert RelativeUrl(siteUrl, n) == "";
    EmptyRelativeUrlAlwaysActive(siteUrl, current, n);
  }

  /**
   * As written, a manual link to "/" is active on every request path: its
   * relative URL is empty, which prefixes every path, and it is not the
   * homepage link because "/" differs from the site URL.
   */
  lemma ManualSlashAlwaysActive(siteUrl: string, current: string, children: seq<NavNode>)
    requires siteUrl != "/"
    ensures SelfActive(siteUrl, current, NavNode(Some("/"), None, None, children))
  {
    var n := NavNode(Some("/"), None, None, children);
    if siteUrl != [] {
      assert !(siteUrl <= "/");
      assert RemoveAll("/", siteUrl) == "/" by {
        assert "/"[1..] == "";
      }
    }
    assert LTrimSlash("/") == "" by {
      assert "/"[1..] == "";
    }
    assert RelativeUrl(siteUrl, n) == "";
    EmptyRelativeUrlAlwaysActive(siteUrl, current, n);
  }

  /** The intended test: a node whose relative URL is empty links to the homepage and gets no prefix match. */
  predicate SelfActiveCorrected(siteUrl: string, current: string, n: NavNode)
  {
    var rel := RelativeUrl(siteUrl, n);
    current == rel || (rel != "" && rel <= current)
  }

  /** With the correction, a homepage link (empty relative URL) is active on the homepage path alone. */
  lemma CorrectedHomepageOnlyOnHomepage(siteUrl: string, current: string, n: NavNode)
    requires RelativeUrl(siteUrl, n) == ""
    ensures SelfActiveCorrected(siteUrl, current, n) <==> current == ""
  {
  }

  /** The correction changes nothing for other links, nor for links whose URL is the site URL. */
  lemma CorrectedAgrees(siteUrl: string, current: string, n: NavNode)
    requires siteUrl != []
    requires RelativeUrl(siteUrl, n) != "" || IsHomepage(siteUrl, n)
    ensures SelfActiveCorrected(siteUrl, current, n) == SelfActive(siteUrl, current, n)
  {
    SubstrPrefix(current, RelativeUrl(siteUrl, n));
    if IsHomepage(siteUrl, n) {
      assert siteUrl <= siteUrl && siteUrl[|siteUrl|..] == [];
      assert RemoveAll(siteUrl, siteUrl) == [];
    }
  }
}

=== FILE: new_parent.dfy ===
/**
 * Parent-change detection (`_checkForNewParent`): the ordered decision that
 * tells a node save whether the node must be (re)placed in the structure.
 *
 * The structure query for the current parent is an input, `oldParentId`:
 * the scalar the host's "ancestor at distance 1" query returns.
 */
module NewParent {
  import opened Wrappers
  import opened Php
  import opened NodeModel

  /**
   * `_checkForNewParent`, in source order: a node without an id is new; a
   * null `newParentId` was not submitted; a falsy one away from level 1
   * moves to the top level; a truthy one at level 1 moves under a parent;
   * otherwise the submitted id is compared loosely with the current parent.
   *
   * A move is only reported for a new node or a submitted parent, and a
   * submitted parent that differs loosely from the current one is always a move.
   */
  function CheckForNewParent(id: Option<int>, newParentId: Value, level: Value, oldParentId: Value): (r: bool)
    ensures r ==> id.None? || !newParentId.Null?
    ensures id.Some? && !newParentId.Null? && !LooseEq(newParentId, oldParentId) ==> r
  {
    if id.None? then true
    else if newParentId.Null? then false
    else if !Truthy(newParentId) && !LooseEq(level, Int(1)) then true
    else if Truthy(newParentId) && LooseEq(level, Int(1)) then true
    else !LooseEq(newParentId, oldParentId)
  }

  /** A node without an id always has a new parent. */
  lemma NoIdHasNewParent(newParentId: Value, level: Value, oldParentId: Value)
    ensures CheckForNewParent(None, newParentId, level, oldParentId)
  {
  }

  /** A node with an id and no submitted parent never has one, whatever its level or place. */
  lemma NullNeverNewParent(id: int, level: Value, oldParentId: Value)
    ensures !CheckForNewParent(Some(id), Null, level, oldParentId)
  {
  }

  /**
   * Moving to or from the top level is detected from the level alone: the
   * answer is true for every result the parent query could give.
   */
  lemma LevelDecidesMove(id: int, newParentId: Value, level: Value, oldParentId: Value)
    requires !newParentId.Null?
    requires Truthy(newParentId) == LooseEq(level, Int(1))
    ensures CheckForNewParent(Some(id), newParentId, level, oldParentId)
  {
  }

  /**
   * In every other case for a node with an id and a submitted parent, the
   * answer is whether the submitted id differs (loosely) from the current parent.
   */
  lemma OtherwiseParentCompared(id: int, newParentId: Value, level: Value, oldParentId: Value)
    requires !newParentId.Null?
    requires Truthy(newParentId) != LooseEq(level, Int(1))
    ensures CheckForNewParent(Some(id), newParentId, level, oldParentId) <==> !LooseEq(newParentId, oldParentId)
  {
  }

  /** The scalar the ancestor query returns for a node at `pos`: false (no row) at the top level, the parent id otherwise. */
  predicate IsAncestorScalar(pos: Position, v: Value)
  {
    match pos
    case Root => v == Bool(false)
    case Under(p) => p >= 0 && IsIdValue(v, p)
  }

  /** A well-formed submission asking for `target`: a falsy non-null value for the top level, a positive id otherwise. */
  predicate Requests(v: Value, target: Position)
  {
    match target
    case Root => !v.Null? && !Truthy(v)
    case Under(q) => q > 0 && IsIdValue(v, q)
  }

  /** The node's level is (loosely) 1 exactly when the structure has it at the top level. */
  predicate LevelAgrees(pos: Position, level: Value)
  {
    LooseEq(level, Int(1)) <==> pos.Root?
  }

  /**
   * What the decision is for: when the level and the parent query describe
   * the node's current place `pos`, and the submission asks for `target`,
   * a new parent is detected exactly when `target` differs from `pos`.
   */
  lemma DetectsExactlyAMove(id: int, newParentId: Value, target: Position, level: Value, pos: Position, oldParentId: Value)
    requires Requests(newParentId, target)
    requires LevelAgrees(pos, level)
    requires IsAncestorScalar(pos, oldParentId)
    ensures CheckForNewParent(Some(id), newParentId, level, oldParentId) <==> target != pos
  {
    match target
    case Root =>
      if pos.Root? {
        assert LooseEq(newParentId, oldParentId) <==> !Truthy(newParentId);
      }
    case Under(q) =>
      assert Truthy(newParentId) by {
        assert Decimal(q) != "" && Decimal(q) != "0";
      }
      if pos.Under? {
        LooseEqIds(newParentId, q, oldParentId, pos.parent);
      }
  }
}

=== FILE: node_model.dfy ===
/**
 * The values a navigation node is made of: the element it may link to, its
 * stored record, its place in the navigation's structure, the errors its save
 * can throw, and the small accessors `getUrl`, `isManual` and `getNav`.
 */
module NodeModel {
  import opened Wrappers
  import opened Php

  /** The content element a node links to, as the host resolved it: only its URL matters here. */
  datatype Linked = Linked(url: Option<string>)

  /** Where the structure places a node: at the top level, or under a parent node. */
  datatype Position = Root | Under(parent: int)

  /** A row of the node table: the fields `afterSave` writes. */
  datatype NodeRecord = NodeRecord(
    id: int,
    elementId: Option<int>,
    navId: Option<int>,
    url: Option<string>,
    linkType: Option<string>,
    classes: Option<string>,
    newWindow: bool)

  /** What a node save can throw. */
  datatype Error =
    | InvalidParentNode(newParentId: Value)   // the requested parent does not resolve in the node's site
    | InvalidNodeId(id: Option<int>)          // an existing node has no record
    | DuplicateRecord(recordId: int)             // a new record's id is already taken
    | MissingNavId                            // the node has no navigation id
    | InvalidNavId(navId: int)                // the navigation id is unknown
    | MissingParent                           // an append under a parent that was never set
    | ParentNotInStructure(parentId: int)     // an append under a node the navigation's structure does not hold
    | ParentInOwnSubtree(parentId: int)       // an append under the node itself or one of its descendants

  /** A nullable string field is truthy: set, not "" and not "0". */
  predicate TruthyOpt(o: Option<string>)
  {
    Truthy(OfOptString(o))
  }

  /** `isManual`: a node without a link type (null, "" or "0") is a manual link. */
  function IsManual(linkType: Option<string>): (r: bool)
    ensures r <==> linkType.None? || linkType.value == "" || linkType.value == "0"
  {
    !TruthyOpt(linkType)
  }

  /**
   * `getUrl`: the node's own URL when it is truthy; otherwise the linked
   * element's URL when there is an element; otherwise the own (falsy) URL.
   */
  function GetUrl(url: Option<string>, element: Option<Linked>): (r: Option<string>)
    ensures TruthyOpt(url) ==> r == url
    ensures !TruthyOpt(url) && element.Some? ==> r == element.value.url
    ensures !TruthyOpt(url) && element.None? ==> r == url
  {
    if TruthyOpt(url) then url else if element.Some? then element.value.url else url
  }

  /** A URL is only ever falsy when neither the node nor its element has a truthy one. */
  lemma GetUrlTruthy(url: Option<string>, element: Option<Linked>)
    ensures TruthyOpt(GetUrl(url, element)) <==>
      TruthyOpt(url) || (element.Some? && TruthyOpt(element.value.url))
  {
  }

  /**
   * `getNav`: the structure id of the node's navigation; null and unknown
   * navigation ids throw.
   */
  function GetNav(navs: map<int, int>, navId: Option<int>): (r: Result<int, Error>)
    ensures navId.None? ==> r == Failure(MissingNavId)
    ensures navId.Some? && navId.value !in navs ==> r == Failure(InvalidNavId(navId.value))
    ensures r.Success? <==> navId.Some? && navId.value in navs
    ensures r.Success? ==> r.value == navs[navId.value]
  {
    if navId.None? then Failure(MissingNavId)
    else if navId.value !in navs then Failure(InvalidNavId(navId.value))
    else Success(navs[navId.value])
  }

  /**
   * The id a lookup by a submitted value finds: an integer, or a string of
   * integer form; any other value names no node.
   */
  function SubmittedNodeId(v: Value): (r: Option<int>)
    ensures v.Int? ==> r == Some(v.i)
    ensures v.Null? || v.Bool? ==> r.None?
  {
    match v
    case Int(i) => Some(i)
    case Str(s) => if IsIntegerString(s) then Some(LeadingInt(s)) else None
    case _ => None
  }

  /** An id submitted as an integer or as its decimal text finds that id. */
  lemma SubmittedIdValue(v: Value, n: nat)
    requires IsIdValue(v, n)
    ensures SubmittedNodeId(v) == Some(n)
  {
    DecimalRoundTrip(n);
  }

  /** The URL `afterSave` stores: none for a node with a truthy link type, the resolved URL otherwise. */
  function StoredUrl(url: Option<string>, element: Option<Linked>, linkType: Option<string>): (r: Option<string>)
    ensures r.Some? ==> !TruthyOpt(linkType)
    ensures !TruthyOpt(linkType) && TruthyOpt(url) ==> r == url
    ensures !TruthyOpt(linkType) && !TruthyOpt(url) && element.Some? ==> r == element.value.url
    ensures !TruthyOpt(linkType) && !TruthyOpt(url) && element.None? ==> r == url
  {
    if TruthyOpt(linkType) then None else GetUrl(url, element)
  }

  /** The record `afterSave` writes for a node with the given fields. */
  function RecordOf(
    id: int, elementId: Option<int>, navId: Option<int>, url: Option<string>,
    element: Option<Linked>, linkType: Option<string>, classes: Option<string>, newWindow: bool): (r: NodeRecord)
    ensures r.id == id && r.elementId == elementId && r.navId == navId
    ensures r.linkType == linkType && r.classes == classes && r.newWindow == newWindow
    ensures TruthyOpt(linkType) ==> r.url.None?
    ensures !TruthyOpt(linkType) ==> r.url == GetUrl(url, element)
  {
    NodeRecord(id, elementId, navId, StoredUrl(url, element, linkType), linkType, classes, newWindow)
  }

  /**
   * Reloading a saved node with a link type resolves its URL from the linked
   * element as it is at load time, never from a string stored by an earlier save.
   */
  lemma ReloadedElementUrlIsLive(
    id: int, elementId: Option<int>, navId: Option<int>, url: Option<string>,
    element: Option<Linked>, linkType: Option<string>, classes: Option<string>, newWindow: bool,
    current: Linked)
    requires TruthyOpt(linkType)
    ensures GetUrl(RecordOf(id, elementId, navId, url, element, linkType, classes, newWindow).url, Some(current))
      == current.url
  {
  }

  /** A manual node's truthy URL survives a save and reload whatever element is linked then. */
  lemma ReloadedManualUrlKept(
    id: int, elementId: Option<int>, navId: Option<int>, url: Option<string>,
    element: Option<Linked>, linkType: Option<string>, classes: Option<string>, newWindow: bool,
    later: Option<Linked>)
    requires !TruthyOpt(linkType) && TruthyOpt(url)
    ensures GetUrl(RecordOf(id, elementId, navId, url, element, linkType, classes, newWindow).url, later) == url
  {
  }
}

=== FILE: node_save.dfy ===
/**
 * Saving a navigation node: the memoised parent-change answer
 * (`_hasNewParent`), `beforeSave` (resolve and set the requested parent),
 * `afterSave` (write the node record, then move the node in its navigation's
 * structure when a new parent was detected), and the host's save sequence
 * that runs the two hooks around the insertion of the element row.
 */
module NodeSave {
  import opened Wrappers
  import opened Php
  import opened NodeModel
  import opened NewParent

  /** How a hook ends: normally, or by throwing. */
  datatype Outcome = Pass | Fail(error: Error)

  /** The answer a memo gives: the remembered one if there is one, the computed one otherwise. */
  function Memoised(memo: Option<bool>, computed: bool): (r: bool)
    ensures memo.Some? ==> r == memo.value
    ensures memo.None? ==> r == computed
  {
    if memo.Some? then memo.value else computed
  }

  /**
   * The parent `beforeSave` sets for a node with a new parent: the top level
   * for a falsy `newParentId`, otherwise the node that id finds in the node's
   * site; an id that finds none throws.
   */
  function ResolveParent(siteNodes: set<(int, int)>, newParentId: Value, siteId: int): (r: Result<Option<int>, Error>)
    ensures !Truthy(newParentId) ==> r == Success(None)
    ensures Truthy(newParentId) && r.Success? ==>
      r.value.Some? && r.value == SubmittedNodeId(newParentId) && (r.value.value, siteId) in siteNodes
    ensures Truthy(newParentId) && r.Failure? ==>
      r.error == InvalidParentNode(newParentId) &&
      (SubmittedNodeId(newParentId).None? || (SubmittedNodeId(newParentId).value, siteId) !in siteNodes)
  {
    if !Truthy(newParentId) then Success(None)
    else
      var found := SubmittedNodeId(newParentId);
      if found.Some? && (found.value, siteId) in siteNodes then Success(found)
      else Failure(InvalidParentNode(newParentId))
  }

  /**
   * The record `afterSave` writes to: an existing node's own record, which
   * must exist; or, for a new node, a fresh record with the node's id (or the
   * id the table assigns when the node has none).
   */
  function RecordTarget(records: map<int, NodeRecord>, id: Option<int>, isNew: bool, autoId: int): (r: Result<int, Error>)
    ensures !isNew ==> (r.Success? <==> id.Some? && id.value in records)
    ensures !isNew && r.Success? ==> r.value == id.value
    ensures !isNew && r.Failure? ==> r.error == InvalidNodeId(id)
    ensures isNew ==> var rid := if id.Some? then id.value else autoId;
      (r.Success? <==> rid !in records) &&
      (r.Success? ==> r.value == rid) &&
      (r.Failure? ==> r.error == DuplicateRecord(rid))
  {
    if !isNew then
      if id.Some? && id.value in records then Success(id.value) else Failure(InvalidNodeId(id))
    else
      var rid := if id.Some? then id.value else autoId;
      if rid in records then Failure(DuplicateRecord(rid)) else Success(rid)
  }

  /** The placements of one structure; a structure with no placements yet is empty. */
  function StructureOf(structures: map<int, map<int, Position>>, structureId: int): map<int, Position>
  {
    if structureId in structures then structures[structureId] else map[]
  }

  /** The structures after node `id` is appended at `pos` in structure `structureId`. */
  function Placed(structures: map<int, map<int, Position>>, structureId: int, id: int, pos: Position): (r: map<int, map<int, Position>>)
    ensures structureId in r && id in r[structureId] && r[structureId][id] == pos
    ensures forall s :: s in structures && s != structureId ==> s in r && r[s] == structures[s]
    ensures forall k :: k in StructureOf(structures, structureId) && k != id ==>
      k in r[structureId] && r[structureId][k] == StructureOf(structures, structureId)[k]
    ensures r.Keys == structures.Keys + {structureId}
  {
    structures[structureId := StructureOf(structures, structureId)[id := pos]]
  }

  /** `n` is `root`, or `root` is reached from `n` by following at most `fuel` parent links in `s`. */
  predicate Within(s: map<int, Position>, root: int, n: int, fuel: nat)
    decreases fuel
  {
    n == root || (fuel > 0 && n in s && s[n].Under? && Within(s, root, s[n].parent, fuel - 1))
  }

  /**
   * `n` is `root` or one of its descendants in structure `s`. Without a
   * cycle, a chain of parent links passes through at most |s| placed nodes.
   */
  predicate InSubtree(s: map<int, Position>, root: int, n: int)
  {
    Within(s, root, n, |s|)
  }

  /**
   * Why the host's append of node `id` under `p` in structure `s` refuses,
   * if it does: `p` is not in the structure, or `p` is `id` itself or one of
   * its descendants.
   */
  function AppendRefusal(s: map<int, Position>, id: int, p: int): (r: Option<Error>)
    ensures r.None? <==> p in s && !InSubtree(s, id, p)
    ensures r.None? ==> p != id
    ensures p !in s ==> r == Some(ParentNotInStructure(p))
    ensures p in s && InSubtree(s, id, p) ==> r == Some(ParentInOwnSubtree(p))
  {
    if p !in s then Some(ParentNotInStructure(p))
    else if InSubtree(s, id, p) then Some(ParentInOwnSubtree(p))
    else None
  }

  /** A chain of parent links that avoids `id` is the same in two structures that differ only at `id`. */
  lemma {:induction false} WithinAwayFrom(s: map<int, Position>, t: map<int, Position>, id: int, n: int, fuel: nat)
    requires forall k :: k != id ==> (k in s <==> k in t)
    requires forall k :: k != id && k in s ==> s[k] == t[k]
    requires !Within(s, id, n, fuel)
    ensures !Within(t, id, n, fuel)
    decreases fuel
  {
    if fuel > 0 && n in t && t[n].Under? {
      WithinAwayFrom(s, t, id, t[n].parent, fuel - 1);
    }
  }

  /**
   * An append the host accepts makes no cycle through the node: in the new
   * structure, the node's new parent does not lead back to the node.
   */
  lemma AcceptedAppendLeavesNoCycle(structures: map<int, map<int, Position>>, structureId: int, id: int, p: int)
    requires AppendRefusal(StructureOf(structures, structureId), id, p).None?
    ensures var s := StructureOf(structures, structureId);
      var t := Placed(structures, structureId, id, Under(p))[structureId];
      t[id] == Under(p) && !Within(t, id, p, |s|)
  {
    var s := StructureOf(structures, structureId);
    var t := Placed(structures, structureId, id, Under(p))[structureId];
    assert t == s[id := Under(p)];
    WithinAwayFrom(s, t, id, p, |s|);
  }

  /** The stores the node code reads and writes through its host. */
  class Store {
    /** The node table, by record id. */
    var records: map<int, NodeRecord>
    /** The (node id, site id) pairs a node lookup finds. */
    var siteNodes: set<(int, int)>
    /** The navigations: navigation id to structure id. */
    var navs: map<int, int>
    /** The structures: structure id to each placed node's position. */
    var structures: map<int, map<int, Position>>

    constructor (records: map<int, NodeRecord>, siteNodes: set<(int, int)>, navs: map<int, int>, structures: map<int, map<int, Position>>)
      ensures this.records == records && this.siteNodes == siteNodes
      ensures this.navs == navs && this.structures == structures
    {
      this.records := records;
      this.siteNodes := siteNodes;
      this.navs := navs;
      this.structures := structures;
    }
  }

  class Node {
    var id: Option<int>
    var elementId: Option<int>
    var siteId: int
    var navId: Option<int>
    var linkType: Option<string>
    var classes: Option<string>
    var newWindow: bool
    /** The node's own URL (`_url`). */
    var url: Option<string>
    /** The element the host resolved from `elementId`. */
    var element: Option<Linked>
    /** The submitted parent: null when the field was not submitted. */
    var newParentId: Value
    /** The node's level in the structure, as the host loaded it. */
    var level: Value
    /**
     * The parent set by `setParent`. After `beforeSave` has set it, None is
     * the top level; before that, None means no parent was set, which is how
     * `afterSave` reads it when a truthy `newParentId` asks for a parent.
     */
    var parent: Option<int>
    /** The memo of `_hasNewParent`: None until first computed. */
    var hasNewParentMemo: Option<bool>

    constructor (
      id: Option<int>, elementId: Option<int>, siteId: int, navId: Option<int>,
      linkType: Option<string>, classes: Option<string>, newWindow: bool,
      url: Option<string>, element: Option<Linked>, newParentId: Value, level: Value)
      ensures this.id == id && this.elementId == elementId && this.siteId == siteId && this.navId == navId
      ensures this.linkType == linkType && this.classes == classes && this.newWindow == newWindow
      ensures this.url == url && this.element == element
      ensures this.newParentId == newParentId && this.level == level
      ensures this.parent.None? && this.hasNewParentMemo.None?
    {
      this.id := id;
      this.elementId := elementId;
      this.siteId := siteId;
      this.navId := navId;
      this.linkType := linkType;
      this.classes := classes;
      this.newWindow := newWindow;
      this.url := url;
      this.element := element;
      this.newParentId := newParentId;
      this.level := level;
      this.parent := None;
      this.hasNewParentMemo := None;
    }

    /** The record this node's fields make under record id `recordId`. */
    function Record(recordId: int): NodeRecord
      reads this
    {
      RecordOf(recordId, elementId, navId, url, element, linkType, classes, newWindow)
    }

    /**
     * `_hasNewParent`: the first call computes `_checkForNewParent` (with the
     * parent query's answer `oldParentId`) and remembers it; later calls
     * return the remembered answer.
     */
    method HasNewParent(oldParentId: Value) returns (r: bool)
      modifies this`hasNewParentMemo
      ensures r == Memoised(old(hasNewParentMemo), CheckForNewParent(id, newParentId, level, oldParentId))
      ensures hasNewParentMemo == Some(r)
    {
      if hasNewParentMemo.Some? {
        return hasNewParentMemo.value;
      }
      r := CheckForNewParent(id, newParentId, level, oldParentId);
      hasNewParentMemo := Some(r);
    }

    /**
     * `beforeSave`: with a new parent, set the parent `newParentId` resolves
     * to (the top level when it is falsy), or throw when it resolves to no
     * node of this site; without one, leave the parent alone.
     */
    method BeforeSave(store: Store, oldParentId: Value) returns (r: Outcome)
      modifies this`hasNewParentMemo, this`parent
      ensures hasNewParentMemo == Some(Memoised(old(hasNewParentMemo), CheckForNewParent(id, newParentId, level, oldParentId)))
      ensures !hasNewParentMemo.value ==> r == Pass && parent == old(parent)
      ensures hasNewParentMemo.value ==>
        var resolved := ResolveParent(store.siteNodes, newParentId, siteId);
        (resolved.Success? ==> r == Pass && parent == resolved.value) &&
        (resolved.Failure? ==> r == Fail(resolved.error) && parent == old(parent))
    {
      var moved := HasNewParent(oldParentId);
      if moved {
        var resolved := ResolveParent(store.siteNodes, newParentId, siteId);
        if resolved.Failure? {
          return Fail(resolved.error);
        }
        parent := resolved.value;
      }
      r := Pass;
    }

    /**
     * `afterSave`: write the node's record (an existing node's record must
     * exist), take the record's id, look up the navigation (a missing or
     * unknown navigation id throws, after the record is written), and, when a
     * new parent was detected, append the node at the top level for a falsy
     * `newParentId` or under the parent set by `beforeSave` otherwise. The
     * host's append throws, changing no structure, when it refuses the parent
     * (`AppendRefusal`): a parent outside the navigation's structure (the
     * parent lookup is scoped to the site, not to the navigation), or the
     * node itself or one of its descendants (the plugin has no check of its own).
     */
    method AfterSave(store: Store, isNew: bool, autoId: int, oldParentId: Value) returns (r: Outcome)
      modifies this`id, this`hasNewParentMemo, store`records, store`structures
      ensures var target := RecordTarget(old(store.records), old(id), isNew, autoId);
        target.Failure? ==>
          r == Fail(target.error) && id == old(id) && hasNewParentMemo == old(hasNewParentMemo) &&
          store.records == old(store.records) && store.structures == old(store.structures)
      ensures var target := RecordTarget(old(store.records), old(id), isNew, autoId);
        target.Success? ==>
          store.records == old(store.records)[target.value := Record(target.value)] && id == Some(target.value)
      ensures var target := RecordTarget(old(store.records), old(id), isNew, autoId);
        var nav := GetNav(store.navs, navId);
        target.Success? && nav.Failure? ==>
          r == Fail(nav.error) && hasNewParentMemo == old(hasNewParentMemo) && store.structures == old(store.structures)
      ensures var target := RecordTarget(old(store.records), old(id), isNew, autoId);
        var nav := GetNav(store.navs, navId);
        target.Success? && nav.Success? ==>
          var moved := Memoised(old(hasNewParentMemo), CheckForNewParent(Some(target.value), newParentId, level, oldParentId));
          hasNewParentMemo == Some(moved) &&
          (!moved ==> r == Pass && store.structures == old(store.structures)) &&
          (moved && !Truthy(newParentId) ==>
            r == Pass && store.structures == Placed(old(store.structures), nav.value, target.value, Root)) &&
          (moved && Truthy(newParentId) && parent.Some? ==>
            var refusal := AppendRefusal(StructureOf(old(store.structures), nav.value), target.value, parent.value);
            (refusal.None? ==>
              r == Pass && store.structures == Placed(old(store.structures), nav.value, target.value, Under(parent.value))) &&
            (refusal.Some? ==> r == Fail(refusal.value) && store.structures == old(store.structures))) &&
          (moved && Truthy(newParentId) && parent.None? ==>
            r == Fail(MissingParent) && store.structures == old(store.structures))
    {
      var target := RecordTarget(store.records, id, isNew, autoId);
      if target.Failure? {
        return Fail(target.error);
      }
      var recordId := target.value;
      store.records := store.records[recordId := Record(recordId)];
      id := Some(recordId);

      var nav := GetNav(store.navs, navId);
      if nav.Failure? {
        return Fail(nav.error);
      }

      var moved := HasNewParent(oldParentId);
      if moved {
        if !Truthy(newParentId) {
          store.structures := Placed(store.structures, nav.value, recordId, Root);
        } else if parent.None? {
          return Fail(MissingParent);
        } else {
          var refusal := AppendRefusal(StructureOf(store.structures, nav.value), recordId, parent.value);
          if refusal.Some? {
            return Fail(refusal.value);
          }
          store.structures := Placed(store.structures, nav.value, recordId, Under(parent.value));
        }
      }
      r := Pass;
    }

    /**
     * The host's save: `beforeSave`; for a new node, the element row is
     * inserted and the node takes its id `newId`; then `afterSave`. Both
     * hooks act on one parent-change answer, computed before the node has an
     * id, so a new node is always placed in the structure. A hook that
     * throws ends the save; the host's transaction rollback is not modelled.
     */
    method Save(store: Store, isNew: bool, newId: int, oldParentId: Value) returns (r: Outcome)
      modifies this`id, this`hasNewParentMemo, this`parent, store`records, store`structures
      ensures var moved := Memoised(old(hasNewParentMemo), CheckForNewParent(old(id), newParentId, level, oldParentId));
        hasNewParentMemo == Some(moved)
      ensures var moved := Memoised(old(hasNewParentMemo), CheckForNewParent(old(id), newParentId, level, oldParentId));
        moved && ResolveParent(store.siteNodes, newParentId, siteId).Failure? ==>
          r == Fail(InvalidParentNode(newParentId)) &&
          store.records == old(store.records) && store.structures == old(store.structures)
      ensures var savedId := if isNew then Some(newId) else old(id);
        var target := RecordTarget(old(store.records), savedId, isNew, newId);
        r == Pass ==>
          target.Success? && id == Some(target.value) &&
          store.records == old(store.records)[target.value := Record(target.value)]
      ensures var moved := Memoised(old(hasNewParentMemo), CheckForNewParent(old(id), newParentId, level, oldParentId));
        r == Pass && !moved ==> store.structures == old(store.structures) && parent == old(parent)
      ensures var moved := Memoised(old(hasNewParentMemo), CheckForNewParent(old(id), newParentId, level, oldParentId));
        r == Pass && moved ==>
          id.Some? && navId.Some? && navId.value in store.navs &&
          (!Truthy(newParentId) ==>
            store.structures == Placed(old(store.structures), store.navs[navId.value], id.value, Root)) &&
          (Truthy(newParentId) ==>
            parent.Some? && (parent.value, siteId) in store.siteNodes &&
            parent.value in StructureOf(old(store.structures), store.navs[navId.value]) &&
            !InSubtree(StructureOf(old(store.structures), store.navs[navId.value]), id.value, parent.value) &&
            store.structures == Placed(old(store.structures), store.navs[navId.value], id.value, Under(parent.value)))
      ensures var savedId := if isNew then Some(newId) else old(id);
        var target := RecordTarget(old(store.records), savedId, isNew, newId);
        r.Fail? && (r.error == MissingNavId || r.error.InvalidNavId? || r.error.ParentNotInStructure? || r.error.ParentInOwnSubtree?) ==>
          target.Success? && store.records == old(store.records)[target.value := Record(target.value)] &&
          store.structures == old(store.structures)
      ensures var moved := Memoised(old(hasNewParentMemo), CheckForNewParent(old(id), newParentId, level, oldParentId));
        var savedId := if isNew then Some(newId) else old(id);
        var target := RecordTarget(old(store.records), savedId, isNew, newId);
        target.Success? && GetNav(store.navs, navId).Success? &&
        (moved && Truthy(newParentId) ==>
          var resolved := ResolveParent(store.siteNodes, newParentId, siteId);
          resolved.Success? && resolved.value.Some? &&
          AppendRefusal(StructureOf(old(store.structures), GetNav(store.navs, navId).value), target.value, resolved.value.value).None?) ==>
          r == Pass
      ensures var moved := Memoised(old(hasNewParentMemo), CheckForNewParent(old(id), newParentId, level, oldParentId));
        r == Pass && moved && Truthy(newParentId) ==> parent == SubmittedNodeId(newParentId)
      ensures var moved := Memoised(old(hasNewParentMemo), CheckForNewParent(old(id), newParentId, level, oldParentId));
        r == Pass && moved && !Truthy(newParentId) ==> parent == None
      ensures var moved := Memoised(old(hasNewParentMemo), CheckForNewParent(old(id), newParentId, level, oldParentId));
        var savedId := if isNew then Some(newId) else old(id);
        var target := RecordTarget(old(store.records), savedId, isNew, newId);
        target.Failure? && !(moved && ResolveParent(store.siteNodes, newParentId, siteId).Failure?) ==>
          r == Fail(target.error) && store.records == old(store.records) && store.structures == old(store.structures)
      ensures var moved := Memoised(old(hasNewParentMemo), CheckForNewParent(old(id), newParentId, level, oldParentId));
        var savedId := if isNew then Some(newId) else old(id);
        var target := RecordTarget(old(store.records), savedId, isNew, newId);
        var resolved := ResolveParent(store.siteNodes, newParentId, siteId);
        var nav := GetNav(store.navs, navId);
        moved && Truthy(newParentId) && resolved.Success? && target.Success? && nav.Success? &&
        resolved.value.value !in StructureOf(old(store.structures), nav.value) ==>
          r == Fail(ParentNotInStructure(resolved.value.value)) &&
          store.records == old(store.records)[target.value := Record(target.value)] &&
          store.structures == old(store.structures)
      ensures var moved := Memoised(old(hasNewParentMemo), CheckForNewParent(old(id), newParentId, level, oldParentId));
        var savedId := if isNew then Some(newId) else old(id);
        var target := RecordTarget(old(store.records), savedId, isNew, newId);
        var resolved := ResolveParent(store.siteNodes, newParentId, siteId);
        var nav := GetNav(store.navs, navId);
        moved && Truthy(newParentId) && resolved.Success? && target.Success? && nav.Success? &&
        resolved.value.value in StructureOf(old(store.structures), nav.value) &&
        InSubtree(StructureOf(old(store.structures), nav.value), target.value, resolved.value.value) ==>
          r == Fail(ParentInOwnSubtree(resolved.value.value)) &&
          store.records == old(store.records)[target.value := Record(target.value)] &&
          store.structures == old(store.structures)
    {
      r := BeforeSave(store, oldParentId);
      if r.Fail? {
        return;
      }
      if isNew {
        id := Some(newId);
      }
      r := AfterSave(store, isNew, newId, oldParentId);
    }
  }

  /**
   * Why the memo matters: asked again after the element row is inserted, a
   * new node submitted without a parent would no longer count as having a
   * new parent, and `afterSave` would not place it.
   */
  lemma RecomputingAfterInsertWouldMiss(newId: int, level: Value, oldParentId: Value)
    ensures CheckForNewParent(None, Null, level, oldParentId)
    ensures !CheckForNewParent(Some(newId), Null, level, oldParentId)
  {
  }

  /**
   * A brand-new node saved with no parent submitted, into a navigation that
   * exists and under an id not yet taken, is written and ends up at the top
   * level of its navigation's structure, whatever the parent query answers.
   */
  method NewNodeLandsAtTopLevel(store: Store, node: Node, newId: int, nav: int, sid: int, oldParentId: Value)
    returns (r: Outcome)
    requires node.id.None? && node.hasNewParentMemo.None? && node.newParentId == Null
    requires newId !in store.records
    requires node.navId == Some(nav) && nav in store.navs && store.navs[nav] == sid
    modifies node, store
    ensures r == Pass && node.id == Some(newId)
    ensures newId in store.records && store.records[newId] == node.Record(newId)
    ensures sid in store.structures && newId in store.structures[sid] && store.structures[sid][newId] == Root
  {
    r := node.Save(store, true, newId, oldParentId);
  }

  /**
   * The parent lookup is scoped to the site, not to the navigation: node 1 of
   * navigation 7 asking for node 50, which sits in navigation 8 of the same
   * site, passes `beforeSave`, has its record written, and is not appended.
   */
  method ParentFromOtherNavigationRejected() returns (r: Outcome, records: map<int, NodeRecord>, structures: map<int, map<int, Position>>)
    ensures r == Fail(ParentNotInStructure(50))
    ensures 1 in records && records[1].navId == Some(7)
    ensures structures == map[70 := map[1 := Root], 80 := map[50 := Root]]
  {
    var before := NodeRecord(1, None, Some(7), Some("/a"), None, None, false);
    var store := new Store(map[1 := before], {(50, 1)}, map[7 := 70, 8 := 80],
      map[70 := map[1 := Root], 80 := map[50 := Root]]);
    var node := new Node(Some(1), None, 1, Some(7), None, None, false, Some("/a"), None, Int(50), Int(1));
    r := node.Save(store, false, 0, Bool(false));
    records := store.records;
    structures := store.structures;
  }

  /** Node 1, under node 2, asking to be its own parent: the append is refused after the record write. */
  method SelfParentRejected() returns (r: Outcome, structures: map<int, map<int, Position>>)
    ensures r == Fail(ParentInOwnSubtree(1))
    ensures structures == map[70 := map[2 := Root, 1 := Under(2)]]
  {
    var store := new Store(map[1 := NodeRecord(1, None, Some(7), Some("/a"), None, None, false)], {(1, 1), (2, 1)},
      map[7 := 70], map[70 := map[2 := Root, 1 := Under(2)]]);
    var node := new Node(Some(1), None, 1, Some(7), None, None, false, Some("/a"), None, Int(1), Int(2));
    r := node.Save(store, false, 0, Int(2));
    structures := store.structures;
  }

  /** Node 2, at the top level, asking to move under its own child 1: the append is refused after the record write. */
  method ChildParentRejected() returns (r: Outcome, structures: map<int, map<int, Position>>)
    ensures r == Fail(ParentInOwnSubtree(1))
    ensures structures == map[70 := map[2 := Root, 1 := Under(2)]]
  {
    var store := new Store(map[2 := NodeRecord(2, None, Some(7), Some("/b"), None, None, false)], {(1, 1), (2, 1)},
      map[7 := 70], map[70 := map[2 := Root, 1 := Under(2)]]);
    var node := new Node(Some(2), None, 1, Some(7), None, None, false, Some("/b"), None, Int(1), Int(1));
    r := node.Save(store, false, 0, Bool(false));
    structures := store.structures;
  }
}

=== FILE: php.dfy ===
/**
 * The parts of PHP 7's value semantics that the navigation node relies on:
 * truthiness (`if ($x)`, `!$x`), loose comparison (`==`, `!=`), and the
 * string functions `str_replace` (with an empty replacement), `ltrim` and
 * `substr(s, 0, n)`.
 *
 * Numeric strings are modelled for integer text only: optional leading
 * whitespace, an optional sign and at least one decimal digit.
 */
module Php {
  import opened Wrappers

  /** A PHP scalar as the node code meets it: form input, database scalars, ids and levels. */
  datatype Value = Null | Bool(b: bool) | Int(i: int) | Str(s: string)

  /** A nullable string field (`$_url`, `$type`) seen as a PHP value. */
  function OfOptString(o: Option<string>): (v: Value)
    ensures v.Null? <==> o.None?
    ensures o.Some? ==> v == Str(o.value)
  {
    if o.Some? then Str(o.value) else Null
  }

  /** PHP's conversion to boolean: exactly five values are falsy, null, false, 0, "" and "0". */
  predicate Truthy(v: Value)
    ensures !Truthy(v) <==> v == Null || v == Bool(false) || v == Int(0) || v == Str("") || v == Str("0")
  {
    match v
    case Null => false
    case Bool(b) => b
    case Int(i) => i != 0
    case Str(s) => s != "" && s != "0"
  }

  // ---------------------------------------------------------------------
  // Integer text

  predicate IsSpace(c: char)
  {
    c == ' ' || c == '\t' || c == '\n' || c == '\r' || c == '\U{B}' || c == '\U{C}'
  }

  predicate IsDigit(c: char)
  {
    '0' <= c <= '9'
  }

  predicate AllDigits(s: string)
  {
    forall i :: 0 <= i < |s| ==> IsDigit(s[i])
  }

  /** `s` without its leading whitespace. */
  function SkipSpace(s: string): (r: string)
    ensures |r| <= |s| && r == s[|s| - |r|..]
    ensures r == [] || !IsSpace(r[0])
    ensures forall i :: 0 <= i < |s| - |r| ==> IsSpace(s[i])
  {
    if |s| > 0 && IsSpace(s[0]) then SkipSpace(s[1..]) else s
  }

  /** The longest prefix of `s` made of decimal digits. */
  function DigitRun(s: string): (r: string)
    ensures r <= s && AllDigits(r)
    ensures |r| == |s| || !IsDigit(s[|r|])
  {
    if |s| > 0 && IsDigit(s[0]) then [s[0]] + DigitRun(s[1..]) else []
  }

  /** The number a run of decimal digits denotes. */
  function DigitsValue(d: string): nat
    requires AllDigits(d)
  {
    if d == [] then 0 else 10 * DigitsValue(d[..|d| - 1]) + (d[|d| - 1] as int - '0' as int)
  }

  /** `s` after its whitespace and sign, and whether the sign was a minus. */
  function Unsigned(s: string): (string, bool)
  {
    var t := SkipSpace(s);
    if |t| > 0 && (t[0] == '-' || t[0] == '+') then (t[1..], t[0] == '-') else (t, false)
  }

  /**
   * The integer PHP 7 reads from the front of a string when it compares it
   * with a number: whitespace, a sign and digits; no digits read as 0.
   */
  function LeadingInt(s: string): int
  {
    var (u, negative) := Unsigned(s);
    var n: int := DigitsValue(DigitRun(u));
    if negative then -n else n
  }

  /** A numeric string of integer form: nothing may follow the digits. */
  predicate IsIntegerString(s: string)
  {
    var (u, _) := Unsigned(s);
    |u| > 0 && AllDigits(u)
  }

  function DigitChar(d: nat): (c: char)
    requires d < 10
    ensures IsDigit(c) && c as int - '0' as int == d
  {
    (d + '0' as int) as char
  }

  /** The decimal text of a natural number, as a database driver returns an id. */
  function Decimal(n: nat): (r: string)
    ensures |r| > 0 && AllDigits(r)
    ensures n > 0 ==> r[0] != '0'
  {
    if n < 10 then [DigitChar(n)] else Decimal(n / 10) + [DigitChar(n % 10)]
  }

  lemma {:induction false} DecimalValue(n: nat)
    ensures DigitsValue(Decimal(n)) == n
  {
    if n >= 10 {
      var d := Decimal(n);
      assert d[..|d| - 1] == Decimal(n / 10);
      DecimalValue(n / 10);
    }
  }

  lemma {:induction false} DigitRunOfDigits(s: string)
    requires AllDigits(s)
    ensures DigitRun(s) == s
  {
    if |s| > 0 {
      DigitRunOfDigits(s[1..]);
    }
  }

  /** Decimal text is a numeric string that reads back as the number it was made from. */
  lemma DecimalRoundTrip(n: nat)
    ensures IsIntegerString(Decimal(n))
    ensures LeadingInt(Decimal(n)) == n
  {
    var d := Decimal(n);
    assert IsDigit(d[0]);
    assert SkipSpace(d) == d;
    assert Unsigned(d) == (d, false);
    DigitRunOfDigits(d);
    DecimalValue(n);
    assert LeadingInt(d) == DigitsValue(d);
  }

  // ---------------------------------------------------------------------
  // Loose comparison

  /**
   * PHP 7's `==`: a bool on either side compares truthiness; null against a
   * string compares with ""; null against an int compares truthiness; two
   * numeric strings compare as numbers; an int against a string compares
   * with the string's leading integer.
   *
   * Every value is loosely equal to itself, and comparing with `false` asks
   * exactly whether a value is falsy.
   */
  predicate LooseEq(a: Value, b: Value)
    ensures a == b ==> LooseEq(a, b)
    ensures b == Bool(false) ==> (LooseEq(a, b) <==> !Truthy(a))
  {
    match (a, b)
    case (Bool(_), _) => Truthy(a) == Truthy(b)
    case (_, Bool(_)) => Truthy(a) == Truthy(b)
    case (Null, Null) => true
    case (Null, Int(_)) => Truthy(a) == Truthy(b)
    case (Int(_), Null) => Truthy(a) == Truthy(b)
    case (Null, Str(t)) => t == ""
    case (Str(s), Null) => s == ""
    case (Int(x), Int(y)) => x == y
    case (Int(x), Str(t)) => x == LeadingInt(t)
    case (Str(s), Int(y)) => LeadingInt(s) == y
    case (Str(s), Str(t)) =>
      if IsIntegerString(s) && IsIntegerString(t) then LeadingInt(s) == LeadingInt(t) else s == t
  }

  lemma LooseEqSymmetric(a: Value, b: Value)
    ensures LooseEq(a, b) == LooseEq(b, a)
  {
  }

  /** Loose comparison is not transitive: null == 0 and 0 == "a", yet null != "a". */
  lemma LooseEqNotTransitive()
    ensures LooseEq(Null, Int(0)) && LooseEq(Int(0), Str("a")) && !LooseEq(Null, Str("a"))
  {
    assert Unsigned("a") == ("a", false);
    assert DigitRun("a") == [];
  }

  /** An id as PHP code meets it: an integer or its decimal text. */
  predicate IsIdValue(v: Value, n: nat)
  {
    v == Int(n) || v == Str(Decimal(n))
  }

  /** Two ids, each an integer or decimal text, are loosely equal exactly when they are the same number. */
  lemma LooseEqIds(v: Value, n: nat, w: Value, m: nat)
    requires IsIdValue(v, n) && IsIdValue(w, m)
    ensures LooseEq(v, w) <==> n == m
  {
    DecimalRoundTrip(n);
    DecimalRoundTrip(m);
  }

  // ---------------------------------------------------------------------
  // Strings

  /** `search` occurs somewhere in `s`. */
  predicate Occurs(search: string, s: string)
    decreases |s|
  {
    search <= s || (|s| > 0 && Occurs(search, s[1..]))
  }

  /**
   * `str_replace(search, '', subject)`: scanning left to right, every
   * non-overlapping occurrence of `search` is deleted; an empty `search`
   * leaves the subject as it is.
   */
  function RemoveAll(subject: string, search: string): (r: string)
    ensures |r| <= |subject|
    ensures search == [] ==> r == subject
    ensures search != [] && Occurs(search, subject) ==> |r| <= |subject| - |search|
    decreases |subject|
  {
    if search == [] || subject == [] then subject
    else if search <= subject then RemoveAll(subject[|search|..], search)
    else [subject[0]] + RemoveAll(subject[1..], search)
  }

  /**
   * Removal up to the first occurrence: the text before it is kept as it is,
   * the occurrence itself is dropped, and removal resumes right after it.
   */
  lemma {:induction false} RemoveAllFirstOccurrence(subject: string, search: string, i: nat)
    requires search != [] && i <= |subject|
    requires search <= subject[i..]
    requires forall j :: 0 <= j < i ==> !(search <= subject[j..])
    ensures i + |search| <= |subject|
    ensures RemoveAll(subject, search) == subject[..i] + RemoveAll(subject[i + |search|..], search)
    decreases i
  {
    if i == 0 {
      assert subject[0..] == subject;
    } else {
      assert subject[0..] == subject;
      assert !(search <= subject);
      var tail := subject[1..];
      assert tail[i - 1..] == subject[i..];
      forall j | 0 <= j < i - 1
        ensures !(search <= tail[j..])
      {
        assert tail[j..] == subject[j + 1..];
      }
      RemoveAllFirstOccurrence(tail, search, i - 1);
      assert subject[..i] == [subject[0]] + tail[..i - 1];
      assert tail[i - 1 + |search|..] == subject[i + |search|..];
    }
  }

  /** A subject in which `search` never occurs comes back unchanged. */
  lemma {:induction false} RemoveAllAbsent(subject: string, search: string)
    requires !Occurs(search, subject)
    ensures RemoveAll(subject, search) == subject
    decreases |subject|
  {
    if search != [] && subject != [] {
      RemoveAllAbsent(subject[1..], search);
    }
  }

  /** Removing a base from an absolute address gives the remainder when the base does not recur in it. */
  lemma RemoveAllBase(base: string, path: string)
    requires base != [] && !Occurs(base, path)
    ensures RemoveAll(base + path, base) == path
  {
    assert (base + path)[|base|..] == path;
    RemoveAllAbsent(path, base);
  }

  /** Occurrences after the start are removed too: "s/a/s/" without "s/" is "a/". */
  lemma RemoveAllInterior()
    ensures RemoveAll("s/a/s/", "s/") == "a/"
  {
    assert "s/" <= "s/a/s/";
    assert "s/a/s/"[2..] == "a/s/";
    assert "a/s/"[0] != "s/"[0];
    assert "a/s/"[1..] == "/s/";
    assert "/s/"[0] != "s/"[0];
    assert "/s/"[1..] == "s/";
    assert "s/" <= "s/";
    assert "s/"[2..] == "";
  }

  /** `ltrim(s, '/')`: every leading '/' is stripped, and nothing else. */
  function LTrimSlash(s: string): (r: string)
    ensures |r| <= |s| && r == s[|s| - |r|..]
    ensures r == [] || r[0] != '/'
    ensures forall i :: 0 <= i < |s| - |r| ==> s[i] == '/'
  {
    if |s| > 0 && s[0] == '/' then LTrimSlash(s[1..]) else s
  }

  /** `substr(s, 0, n)` for n >= 0 in PHP 7: the first n characters, or all of s when it is shorter. */
  function Substr0(s: string, n: nat): (r: string)
    ensures r <= s
    ensures |r| == if n <= |s| then n else |s|
  {
    if n <= |s| then s[..n] else s
  }

  /** `substr(s, 0, strlen(p)) === p` is exactly the prefix test. */
  lemma SubstrPrefix(s: string, p: string)
    ensures Substr0(s, |p|) == p <==> p <= s
  {
  }
}

=== FILE: wrappers.dfy ===
/** Optional values and results with an error, used for PHP's nullable fields and thrown exceptions. */
module Wrappers {

  /** A nullable PHP value: `None` stands for `null`. */
  datatype Option<+T> = None | Some(value: T)

  /** The outcome of an operation that may throw: `Failure` carries what was thrown. */
  datatype Result<+T, +E> = Success(value: T) | Failure(error: E)
}
